=== FILE: README.md ===
# Arena block allocator: a Dafny model

This project models the device memory allocator of the transformer-block
example:

- `MemoryPool` owns one region reserved on a device. It hands out blocks
  carved from a cursor that only moves forward. Blocks are tracked by integer
  id in a used table and a free table.
  - A freed block goes to the free table. The first free block large enough
    for a later request, in the table's iteration order, is handed out again
    whole.
  - Memory is never given back to the region.
- `MemoryManager` keeps one pool per device ordinal. It forwards allocate,
  free and lookup to the pool of the current device.

The model is purely functional. A pool is a value. Each operation runs under
the pool's mutex for its whole body, so each one is modelled as a single
transition from one pool value to the next.

The modules:

- `CppInt` holds the C++ integer behaviour the code relies on:
  - the 32-bit computation of the tracked size;
  - the rounding of the cursor to 64 bytes;
  - the reading of the signed remaining size as `size_t` in the capacity check;
  - the truncation of the 64-bit id counter into a 32-bit `int`.
- `Optional` is the option type.
- `MemoryPool` holds the pool state and `AllocateBlock`, `FreeBlock`,
  `GetBlockPtr`, `GenerateBlocksId` and the constructor.
- `PoolInvariant` holds the consistency invariant and its preservation by
  every operation and every run. It also holds lookup, reuse, exhaustion and
  double-free properties.
- `PoolHazards` holds edge behaviour, stated as the code has it:
  - the capacity check can let a block end past the region;
  - a request near 2^32 bytes wraps to a 32-byte block;
  - once 2^31 carves have happened, the next issued id is negative.
  
  It also proves that over a 64-byte aligned region with a size that is a
  multiple of 32 (the default 100 MiB among them), no overrun happens in any
  run, of any length, that carves fewer than 2^31 blocks before its last step.
- `PoolScenario` is a worked run, state by state.
- `MemoryManager` is the per-device router.

The device runtime is outside the model and enters as parameters:

- the base address the device reservation returned;
- the list of bases, one per device, for `CreateMemoryPool`;
- the current device ordinal.

The iteration order of the free table, which `std::unordered_map` leaves
unspecified, is a parameter of `Allocate`. It must list each free key exactly
once.

Three behaviours of the code are modelled exactly as written, although an
arena allocator would normally be expected to avoid them:

- An arena allocator is expected to keep every block inside its region. This
  code checks capacity before it deducts the 64-byte padding, so a carve can
  end past the region when the base or the pool size is not suitably aligned
  (`PoolHazards.OverrunExample`). Once the remaining size is negative, every
  later carve passes the check.
- The tracked size is meant to be the request rounded up to 32, plus 32 (the
  comment at memorypool.cpp:35-36). The code computes it in `uint32_t`,
  which wraps for requests above 2^32 - 64 bytes.
- The code stores the 64-bit id counter into an `int`. Ids stay distinct for
  the first 2^32 carves (`CppInt.Int32OfInjective`). But the carve made once
  2^31 carves have happened (counter 2^31) and every later one up to counter
  2^32 - 1 gets a negative id, which `FreeBlock` and `GetBlockPtr` skip.

## Model

| member | source | states |
|---|---|---|
| CppInt.AlignSize | transformer_block/memory/memorypool.cpp:37 | the tracked size is a multiple of 32 below 2^32; for every request up to 2^32 - 64 bytes it exceeds the request by at least 32 and less than 64 bytes |
| CppInt.AlignSizeExact | transformer_block/memory/memorypool.cpp:37 | for every request that does not wrap, the 32-bit computation equals "round up to 32, add 32" computed without bounds |
| CppInt.AlignSizeWrapsAboveLimit | transformer_block/memory/memorypool.cpp:37 | for every request above 2^32 - 64 bytes the tracked size is at most 32 bytes, smaller than the request and than the unbounded computation |
| CppInt.RoundUp64 | transformer_block/memory/memorypool.cpp:61 | the aligned cursor is the next multiple of 64 at or after the cursor, less than 64 bytes further |
| CppInt.AsUnsigned64 | transformer_block/memory/memorypool.cpp:55 | a non-negative `int64_t` keeps its value when compared against `size_t`; a negative one reads as its value plus 2^64, at least 2^63 |
| CppInt.Int32Of | transformer_block/memory/memorypool.cpp:57 | the id stored from the counter is an `int`; below 2^31 it equals the counter, from 2^31 to 2^32 it is the counter minus 2^32 and negative |
| CppInt.Int32OfInjective | transformer_block/memory/memorypool.cpp:57 | distinct counter values below 2^32 become distinct ids, so the truncation alone never makes two carves share an id |
| MemoryPool.Insert | transformer_block/memory/memorypool.cpp:70 | `unordered_map::insert` adds the key; an existing key keeps its old value; other keys are untouched |
| MemoryPool.NewPool | transformer_block/memory/memorypool.cpp:9-15 | a new pool has the cursor at the base, the whole size remaining, no blocks and the id counter at 0 |
| MemoryPool.GenerateBlocksId | transformer_block/memory/memorypool.cpp:25-28 | the id handed out is the counter before the call; the counter goes up by one and nothing else changes |
| MemoryPool.FirstFit | transformer_block/memory/memorypool.cpp:41-51 | the scan returns a free key whose block covers the request, and no key visited before it fits; it returns nothing exactly when no visited key fits |
| MemoryPool.Allocate | transformer_block/memory/memorypool.cpp:30-82 | base and size never change; on failure the pool and the out-parameter are left exactly as they were |
| MemoryPool.AllocateReuse | transformer_block/memory/memorypool.cpp:39-51 | reuse happens exactly when some free block covers the tracked size; the first such block in iteration order moves whole to the used table and its own id is returned; cursor, remaining size and counter stay |
| MemoryPool.AllocateCarve | transformer_block/memory/memorypool.cpp:53-78 | a carve happens exactly when no free block fits and the unsigned capacity check passes; the block starts at the cursor rounded up to 64 and gets the truncated counter as id; the remaining size drops by exactly the distance the cursor moved; the free table stays |
| MemoryPool.Free | transformer_block/memory/memorypool.cpp:84-99 | a negative, unknown or already freed id changes nothing; a used block moves unchanged to the free table; cursor, remaining size and counter never change |
| MemoryPool.GetBlockPtr | transformer_block/memory/memorypool.cpp:101-115 | only a block in the used table yields its address; a negative, freed or unknown id leaves the out-parameter as it was |
| PoolInvariant.NewPoolInv | transformer_block/memory/memorypool.cpp:9-15 | a new pool satisfies the invariant and has all blocks inside the region |
| PoolInvariant.InvInBounds | transformer_block/memory/memorypool.h:58-60 | under the invariant, every block ends inside the region while the remaining size is not negative |
| PoolInvariant.MoveKeepsLive | transformer_block/memory/memorypool.cpp:46-47 | moving a free block to the used table keeps the set of known blocks and keeps the tables disjoint |
| PoolInvariant.ReuseKeepsInv | transformer_block/memory/memorypool.cpp:41-51 | the reuse branch keeps the invariant |
| PoolInvariant.CarveKeepsInv | transformer_block/memory/memorypool.cpp:55-78 | the carve branch keeps the invariant and adds exactly one block, under the counter's value |
| PoolInvariant.AllocateKeepsInv | transformer_block/memory/memorypool.cpp:30-82 | allocation keeps the invariant; the cursor never moves back; the remaining size never grows; a carved id was never issued before; a returned id is used and not free; every earlier block keeps its id, size and address |
| PoolInvariant.FreeKeepsInv | transformer_block/memory/memorypool.cpp:84-99 | freeing keeps the invariant and the set of known blocks |
| PoolInvariant.FreeIdempotent | transformer_block/memory/memorypool.cpp:92-98 | a second free of the same id is a no-op |
| PoolInvariant.LookupAfterAllocate | transformer_block/memory/memorypool.cpp:109-111 | after a successful allocation, looking up the returned id yields its block, which lies between the base and the cursor and covers the tracked size; while the remaining size is not negative the block also ends inside the region |
| PoolInvariant.LookupAfterFree | transformer_block/memory/memorypool.cpp:92-95 | after a free, looking up that id finds nothing and leaves the out-parameter alone |
| PoolInvariant.ReuseAfterFree | transformer_block/memory/memorypool.cpp:41-51 | after a block is freed, every request it covers is served from the free table under every iteration order, and cursor, remaining size and counter stay; when no other free block covers the request, that same block comes back under its id and at its address |
| PoolInvariant.AnyFitMayBeChosen | transformer_block/memory/memorypool.cpp:41-42 | every free block that fits is the one reused under some iteration order |
| PoolInvariant.ExhaustionChangesNothing | transformer_block/memory/memorypool.cpp:80-81 | while the remaining size is not negative, a request whose tracked size is at least the pool size, and that no free block covers, fails and changes nothing; a request whose tracked size wraps to a small value is not covered (see `PoolHazards.WrappedRequestGetsSmallBlock`) |
| PoolInvariant.StepKeepsInv | transformer_block/memory/memorypool.cpp:30-99 | any single allocate, free or lookup keeps the invariant, the monotone cursor and remaining size, and every existing block |
| PoolInvariant.RunKeepsInv | transformer_block/memory/memorypool.cpp:9-99 | every state of a run from construction, of any length, satisfies the invariant as long as fewer than 2^31 blocks are carved before the last step; the counter never exceeds the number of steps; cursor and remaining size are monotone; a block once created keeps its id, size and address |
| PoolHazards.CarveWithRoomStaysInBounds | transformer_block/memory/memorypool.cpp:55-74 | when the remaining size covers the tracked size plus the padding, the allocation leaves every block inside the region, for every consistent pool whatever the value of the id counter |
| PoolHazards.OverrunFirstCarve | transformer_block/memory/memorypool.cpp:55-74 | a 0-byte request on a fresh 72-byte pool is carved at [0, 32), leaving 40 bytes |
| PoolHazards.OverrunSecondCarve | transformer_block/memory/memorypool.cpp:55-74 | a second 0-byte request passes the check 40 > 32, is padded to 64 and carved at [64, 96), leaving -24 bytes |
| PoolHazards.OverrunExample | transformer_block/memory/memorypool.cpp:55-74 | the capacity check before padding lets a block end past the region and drives the remaining size negative |
| PoolHazards.OverrunPoolState | transformer_block/memory/memorypool.cpp:55-74 | the overrun state satisfies the invariant yet has a block outside the region |
| PoolHazards.OverrunKeepsInvButNotBounds | transformer_block/memory/memorypool.cpp:55-74 | the pool reached by the overrun run is consistent but not in bounds |
| PoolHazards.NegativeRemainAdmitsEveryCarve | transformer_block/memory/memorypool.cpp:55 | once the remaining size is negative, the capacity check passes for every request |
| PoolHazards.AlignedAllocateStaysInBounds | transformer_block/memory/memorypool.cpp:55-74 | over an aligned pool whose id counter is below 2^31, every allocation keeps the pool aligned (which includes consistent), its remaining size non-negative and its blocks inside the region |
| PoolHazards.AlignedCarveKeepsRoom | transformer_block/memory/memorypool.cpp:61-74 | over an aligned pool, a carve keeps the remaining size non-negative and the cursor a multiple of 32 from the base |
| PoolHazards.PaddingFits | transformer_block/memory/memorypool.cpp:61-64 | from a cursor a multiple of 32 past a 64-aligned base, the padding is covered by any remaining size that is a multiple of 32 and exceeds the tracked size |
| PoolHazards.AlignedFreeStaysInBounds | transformer_block/memory/memorypool.cpp:84-99 | freeing keeps an aligned pool aligned and in bounds |
| PoolHazards.AlignedRunStaysInBounds | transformer_block/memory/memorypool.cpp:9-99 | every state of every run over an aligned region, of any length, that carves fewer than 2^31 blocks before its last step keeps all blocks inside the region |
| PoolHazards.DefaultPoolStaysInBounds | transformer_block/memory/memorypool.cpp:7-15 | with the default 100 MiB size over a 64-aligned region, every state of every run that carves fewer than 2^31 blocks before its last step is in bounds with a non-negative remaining size |
| PoolHazards.WrappedRequestGetsSmallBlock | transformer_block/memory/memorypool.cpp:37-51 | a request of 2^32 - 1 bytes is served by a freed 32-byte block |
| PoolHazards.NegativeIdAfter2To31Carves | transformer_block/memory/memorypool.cpp:57 | the carve at counter 2^31 returns id -2^31; freeing it leaves the pool as it is, and looking it up leaves any out-parameter value as it was |
| PoolScenario.CarveTenBytes | transformer_block/memory/memorypool.cpp:53-78 | 10 bytes on a fresh 1024-byte pool give block 0 of 64 bytes at address 0 |
| PoolScenario.CarveFortyBytes | transformer_block/memory/memorypool.cpp:53-78 | 40 bytes next give block 1 of 96 bytes at address 64 |
| PoolScenario.FreeFirst | transformer_block/memory/memorypool.cpp:92-95 | freeing block 0 moves it to the free table |
| PoolScenario.ReuseForTwentyBytes | transformer_block/memory/memorypool.cpp:41-51 | 20 bytes then reuse block 0 and restore the state before the free |
| PoolScenario.ThousandBytesFail | transformer_block/memory/memorypool.cpp:80-81 | 1000 bytes then fail and change nothing |
| PoolScenario.Scenario | transformer_block/memory/memorypool.cpp:30-99 | the whole run above, state by state |
| MemoryManager.CreateMemoryPool | transformer_block/memory/memory_utils.cpp:10-21 | one fresh pool per device is appended, in device order; pools already present stay where they were |
| MemoryManager.CreateKeepsInv | transformer_block/memory/memory_utils.cpp:14-18 | creation keeps every pool consistent, the existing ones and the appended fresh ones |
| MemoryManager.GetMemoryPool | transformer_block/memory/memory_utils.cpp:30-35 | an ordinal inside the table selects that pool; one at or past the end, or negative (cast to a huge `size_t`), ends the process |
| MemoryManager.AllocateBlock | transformer_block/memory/memory_utils.cpp:38-41 | allocation changes only the current device's pool, exactly as that pool's allocation does |
| MemoryManager.FreeBlock | transformer_block/memory/memory_utils.cpp:44-47 | a free changes only the current device's pool, exactly as that pool's free does |
| MemoryManager.GetBlockPtr | transformer_block/memory/memory_utils.cpp:48-51 | lookup consults only the current device's used table |
| MemoryManager.RoutedAllocateKeepsInv | transformer_block/memory/memory_utils.cpp:38-41 | a routed allocation keeps every pool consistent, while the allocating pool's id counter is below 2^31 |
| MemoryManager.RoutedFreeKeepsInv | transformer_block/memory/memory_utils.cpp:44-47 | a routed free keeps every pool consistent, with no bound on any counter |
| MemoryManager.OtherDevicesUnaffected | transformer_block/memory/memory_utils.cpp:30-51 | an allocation or free on one device leaves lookups on every other device unchanged |

## Left out

- PoolInvariant.AllocateKeepsInv requires that fewer than 2^31 carves have happened (counter below 2^31), and so do `CarveKeepsInv`, `LookupAfterAllocate`, `StepKeepsInv`, `PoolHazards.AlignedAllocateStaysInBounds` (its aligned invariant includes the consistency invariant) and `MemoryManager.RoutedAllocateKeepsInv` (for the allocating pool). `RunKeepsInv`, `AlignedRunStaysInBounds` and `DefaultPoolStaysInBounds` put the same bound on every state before the last; the number of operations in the run is not bounded. Ids stay distinct up to 2^32 carves. But the carve at counter 2^31 and every later one up to counter 2^32 - 1 stores a negative id, so the invariant's "key equals a non-negative issued id" no longer holds. `NegativeIdAfter2To31Carves` states what happens instead.
- AlignedAllocateStaysInBounds (in `PoolHazards`) requires an id counter below 2^31, for the reason given on the line above.
- RoutedAllocateKeepsInv (in `MemoryManager`) requires the allocating pool's id counter to be below 2^31, for the same reason. `RoutedFreeKeepsInv` has no such bound.
- MemoryManager.AllocateBlock requires a device ordinal inside the table, and so do `FreeBlock` and `GetBlockPtr`. Outside it, `CHECK_RET` ends the process; `GetMemoryPool` returns `None` for that case.
- MemoryPool.NewPool requires a pool size below 2^63, because `remainSize_` is an `int64_t`.
- MemoryPool.Allocate keeps the remaining size as an unbounded integer: the `int64_t` wrap after more than 2^63 bytes of overrun is not modelled.
- CppInt.RoundUp64 treats addresses as unbounded naturals: the wrap of an address near 2^64 is not modelled, and neither is the wrap of the 64-bit id counter.
- Device runtime calls (`aclrtMalloc`, `aclrtFree`, `aclrtGetDeviceCount`, `aclrtSetDevice`, `aclrtGetDevice`) become parameters (the base addresses and the device ordinal). A failed reservation ends the process through `CHECK_RET`, so it is not modelled.
- The mutex and the atomic counter: each operation holds the lock for its whole body, so operations are modelled as atomic transitions and interleavings are not modelled.
- The destructor (memorypool.cpp:17-23), which returns the whole region to the device, is left out. It does not reset `baseMemPtr_` after `aclrtFree`, so teardown is not idempotent; no teardown property is modelled.
- Logging is left out. This includes the message at memory_utils.cpp:33, which adds an integer to a string literal.
- The global `GetMemoryManager` instance is left out: the manager is an explicit value.
- `MemoryBlock` is defined in `memory_env.h`, which is not part of this model. Its fields (id, tracked size, address) follow the brace initialiser at memorypool.cpp:69.
- The graph, model and driver files (`model.h`, `atb_graph_layer_norm.cpp`, `main2.cpp`) and the tensor helpers in `utils.h` are callers of the allocator, not part of it. Only `CHECK_RET` from `utils.h` and the 100 MiB pool size from `main2.cpp` are used.

=== FILE: cpp_int.dfy ===
/** C++ integer behaviour the pool depends on: the 32-bit request size, the
    64-bit comparison of the signed remaining size against an unsigned size,
    the truncation of the 64-bit id counter into an `int` block id, and the
    two power-of-two alignments done with `& ~mask`. */
module CppInt {

  const TwoTo31: int := 0x8000_0000
  const TwoTo32: int := 0x1_0000_0000
  const TwoTo63: int := 0x8000_0000_0000_0000
  const TwoTo64: int := 0x1_0000_0000_0000_0000

  /** `uint32_t`, the type of a requested size. */
  type u32 = x: int | 0 <= x < 0x1_0000_0000

  /** `int32_t`, the type of a device ordinal. */
  type i32 = x: int | -0x8000_0000 <= x < 0x8000_0000

  /** `x & ~31` for a non-negative `x`: the low five bits are cleared, which
      rounds down to a multiple of 32. */
  function ClearLow5(x: nat): (r: nat)
    ensures r % 32 == 0
    ensures r <= x < r + 32
  {
    x - x % 32
  }

  /** `x & ~63` for a non-negative `x`: rounds down to a multiple of 64. */
  function ClearLow6(x: nat): (r: nat)
    ensures r % 64 == 0
    ensures r <= x < r + 64
  {
    x - x % 64
  }

  /** The tracked size of a request, `((size + 31) & ~31) + 32`, computed in
      `uint32_t` arithmetic: both additions wrap modulo 2^32. */
  function AlignSize(size: u32): (r: nat)
    ensures r % 32 == 0
    ensures r < TwoTo32
    ensures size <= TwoTo32 - 64 ==> size + 32 <= r < size + 64
  {
    var t := (size + 31) % TwoTo32;
    (ClearLow5(t) + 32) % TwoTo32
  }

  /** Rounding a request up to 32 and adding 32, without any wrap: what the
      computation of `AlignSize` is meant to be. */
  function RoundUpPlusMargin(size: nat): nat
  {
    ClearLow5(size + 31) + 32
  }

  /** For every request that does not wrap, the 32-bit computation agrees
      with the exact one. */
  lemma AlignSizeExact(size: u32)
    requires size <= TwoTo32 - 64
    ensures AlignSize(size) == RoundUpPlusMargin(size)
  {
    assert (size + 31) % TwoTo32 == size + 31;
  }

  /** For every request above 2^32 - 64 the 32-bit computation wraps, and the
      tracked size is at most 32 bytes: smaller than the request itself. */
  lemma AlignSizeWrapsAboveLimit(size: u32)
    requires size > TwoTo32 - 64
    ensures AlignSize(size) <= 32 < size
    ensures AlignSize(size) < RoundUpPlusMargin(size)
  {
    var t := (size + 31) % TwoTo32;
    if size + 31 < TwoTo32 {
      assert t == size + 31;
      assert ClearLow5(t) == TwoTo32 - 32;
      assert AlignSize(size) == 0;
    } else {
      assert t == size + 31 - TwoTo32;
      assert t < 32;
      assert ClearLow5(t) == 0;
      assert AlignSize(size) == 32;
    }
  }

  /** `(p + 63) & ~63` on a 64-bit address: the next 64-byte boundary at or
      after `p` (addresses are naturals, so the 2^64 wrap is left out). */
  function RoundUp64(p: nat): (r: nat)
    ensures r % 64 == 0
    ensures p <= r < p + 64
  {
    ClearLow6(p + 63)
  }

  /** The value an `int64_t` takes when the usual arithmetic conversions turn
      it into `uint64_t` (two's complement reinterpretation). */
  function AsUnsigned64(x: int): (r: nat)
    ensures r < TwoTo64
    ensures 0 <= x < TwoTo64 ==> r == x
    ensures -TwoTo63 <= x < 0 ==> r == x + TwoTo64 && r >= TwoTo63
  {
    x % TwoTo64
  }

  /** The value a `uint64_t` counter takes when it is assigned to a 32-bit
      `int`: the low 32 bits, read as two's complement. */
  function Int32Of(x: nat): (r: int)
    ensures -TwoTo31 <= r < TwoTo31
    ensures x < TwoTo31 ==> r == x
    ensures TwoTo31 <= x < TwoTo32 ==> r == x - TwoTo32 && r < 0
  {
    var w := x % TwoTo32;
    if w < TwoTo31 then w else w - TwoTo32
  }

  /** The truncation loses nothing on the first 2^32 counter values: distinct
      counters below 2^32 give distinct ids (only their sign changes at 2^31). */
  lemma Int32OfInjective(x: nat, y: nat)
    requires x < TwoTo32 && y < TwoTo32 && x != y
    ensures Int32Of(x) != Int32Of(y)
  {
  }
}

=== FILE: memory_manager.dfy ===
/** `MemoryManager`: one pool per device, indexed by device ordinal, and
    forwarding of allocate, free and lookup to the pool of the calling
    thread's current device. The device runtime is outside the model: the
    current device ordinal and the region bases reserved on each device are
    parameters. */
module MemoryManager {
  import opened CppInt
  import opened Optional
  import opened MemoryPool
  import opened PoolInvariant

  /** The manager's only state is its table of pools. */
  datatype Manager = Manager(pools: seq<Pool>)

  /** Every pool in the table is consistent. */
  ghost predicate ManagerInv(m: Manager)
  {
    forall i :: 0 <= i < |m.pools| ==> Inv(m.pools[i])
  }

  /** `CreateMemoryPool(poolSize)`: for each device ordinal `i` in turn, in
      the order the loop visits them, one fresh pool of `poolSize` bytes over
      the region reserved on device `i` (`bases[i]`) is appended. Pools from
      an earlier call stay where they were. */
  method CreateMemoryPool(m: Manager, poolSize: nat, bases: seq<nat>) returns (r: Manager)
    requires poolSize < TwoTo63
    ensures |r.pools| == |m.pools| + |bases|
    ensures r.pools[..|m.pools|] == m.pools
    ensures forall i :: 0 <= i < |bases| ==> r.pools[|m.pools| + i] == NewPool(bases[i], poolSize)
  {
    var pools := m.pools;
    var i := 0;
    while i < |bases|
      invariant 0 <= i <= |bases|
      invariant |pools| == |m.pools| + i
      invariant pools[..|m.pools|] == m.pools
      invariant forall j :: 0 <= j < i ==> pools[|m.pools| + j] == NewPool(bases[j], poolSize)
    {
      pools := pools + [NewPool(bases[i], poolSize)];
      i := i + 1;
    }
    r := Manager(pools);
  }

  /** Creation keeps every pool consistent. */
  lemma CreateKeepsInv(m: Manager, poolSize: nat, bases: seq<nat>, r: Manager)
    requires ManagerInv(m) && poolSize < TwoTo63
    requires |r.pools| == |m.pools| + |bases| && r.pools[..|m.pools|] == m.pools
    requires forall i :: 0 <= i < |bases| ==> r.pools[|m.pools| + i] == NewPool(bases[i], poolSize)
    ensures ManagerInv(r)
  {
    forall i | 0 <= i < |r.pools| ensures Inv(r.pools[i]) {
      if i < |m.pools| {
        assert r.pools[i] == r.pools[..|m.pools|][i];
      } else {
        NewPoolInv(bases[i - |m.pools|], poolSize);
      }
    }
  }

  /** `GetMemoryPool`: the device ordinal (an `int32_t`) is cast to `size_t`
      and checked against the table size; out of range, `CHECK_RET` ends the
      process (`None`). A negative ordinal becomes a huge index and is
      therefore out of range as well. */
  function GetMemoryPool(m: Manager, deviceId: i32): (r: Option<nat>)
    ensures 0 <= deviceId < |m.pools| ==> r == Some(deviceId)
    ensures deviceId >= |m.pools| ==> r == None
    ensures deviceId < 0 && |m.pools| < TwoTo63 ==> r == None
    ensures r.Some? ==> r.value < |m.pools|
  {
    var index := AsUnsigned64(deviceId);
    if index >= |m.pools| then None else Some(index)
  }

  /** `AllocateBlock` routed to the current device's pool: only that pool
      changes, and the table keeps its length. */
  function AllocateBlock(m: Manager, deviceId: i32, size: u32, blockId: int, order: seq<int>): (r: (Manager, int))
    requires 0 <= deviceId < |m.pools|
    requires IsIterationOrder(order, m.pools[deviceId].free)
    ensures |r.0.pools| == |m.pools|
    ensures forall i :: 0 <= i < |m.pools| && i != deviceId ==> r.0.pools[i] == m.pools[i]
    ensures var a := Allocate(m.pools[deviceId], size, blockId, order);
      r.0.pools[deviceId] == a.pool && r.1 == a.blockId
  {
    var i := GetMemoryPool(m, deviceId).value;
    var a := Allocate(m.pools[i], size, blockId, order);
    (Manager(m.pools[i := a.pool]), a.blockId)
  }

  /** `FreeBlock` routed to the current device's pool: only that pool
      changes. */
  function FreeBlock(m: Manager, deviceId: i32, blockId: int): (r: Manager)
    requires 0 <= deviceId < |m.pools|
    ensures |r.pools| == |m.pools|
    ensures forall i :: 0 <= i < |m.pools| && i != deviceId ==> r.pools[i] == m.pools[i]
    ensures r.pools[deviceId] == Free(m.pools[deviceId], blockId)
  {
    var i := GetMemoryPool(m, deviceId).value;
    Manager(m.pools[i := Free(m.pools[i], blockId)])
  }

  /** `GetBlockPtr` routed to the current device's pool: the address comes
      from that pool's used table only; no pool changes. */
  function GetBlockPtr(m: Manager, deviceId: i32, blockId: int, addr: nat): (a: nat)
    requires 0 <= deviceId < |m.pools|
    ensures 0 <= blockId && blockId in m.pools[deviceId].used ==> a == m.pools[deviceId].used[blockId].address
    ensures blockId < 0 || blockId !in m.pools[deviceId].used ==> a == addr
  {
    var i := GetMemoryPool(m, deviceId).value;
    MemoryPool.GetBlockPtr(m.pools[i], blockId, addr)
  }

  /** A routed allocation keeps every pool consistent, while fewer than 2^31
      blocks have been carved from the allocating pool. */
  lemma RoutedAllocateKeepsInv(m: Manager, deviceId: i32, size: u32, blockId: int, order: seq<int>)
    requires ManagerInv(m) && 0 <= deviceId < |m.pools|
    requires IsIterationOrder(order, m.pools[deviceId].free) && m.pools[deviceId].nextId < MaxIssuedIds
    ensures ManagerInv(AllocateBlock(m, deviceId, size, blockId, order).0)
  {
    AllocateKeepsInv(m.pools[deviceId], size, blockId, order);
  }

  /** A routed free keeps every pool consistent. */
  lemma RoutedFreeKeepsInv(m: Manager, deviceId: i32, blockId: int)
    requires ManagerInv(m) && 0 <= deviceId < |m.pools|
    ensures ManagerInv(FreeBlock(m, deviceId, blockId))
  {
    FreeKeepsInv(m.pools[deviceId], blockId);
  }

  /** A block allocated on one device is invisible from every other device:
      the other pools' lookups answer as before. */
  lemma OtherDevicesUnaffected(m: Manager, d: i32, e: i32, size: u32, blockId: int, order: seq<int>, id: int, addr: nat)
    requires 0 <= d < |m.pools| && 0 <= e < |m.pools| && d != e
    requires IsIterationOrder(order, m.pools[d].free)
    ensures GetBlockPtr(AllocateBlock(m, d, size, blockId, order).0, e, id, addr) == GetBlockPtr(m, e, id, addr)
    ensures GetBlockPtr(FreeBlock(m, d, blockId), e, id, addr) == GetBlockPtr(m, e, id, addr)
  {
  }
}

=== FILE: memory_pool.dfy ===
/** One device's arena: a fixed region `[base, base + poolSize)` carved from
    a cursor, with blocks tracked by id in a used table and a free table.
    Every operation holds the pool's mutex for its whole body, so each one is
    a single transition from a pool value to a pool value. */
module MemoryPool {
  import opened CppInt
  import opened Optional

  /** `MemoryBlock`: the id it was issued under, its tracked (already padded)
      size, and its start address. */
  datatype Block = Block(id: int, size: nat, address: nat)

  /** The pool's state. `base` and `poolSize` are fixed at construction;
      `remain` is the signed `remainSize_`; `nextId` is the id counter. */
  datatype Pool = Pool(
    base: nat,
    poolSize: nat,
    cursor: nat,
    remain: int,
    nextId: nat,
    used: map<int, Block>,
    free: map<int, Block>)

  /** Which branch of `AllocateBlock` ran: reuse of the free block under
      `key`, a fresh carve at the cursor, or the failure path. */
  datatype Path = Reused(key: int) | Carved | Exhausted

  /** The pool after `AllocateBlock` together with the value of its
      `blockId` out-parameter. */
  datatype Allocation = Allocation(pool: Pool, blockId: int, path: Path)

  /** `std::unordered_map::insert`: an existing key keeps its value. */
  function Insert(m: map<int, Block>, k: int, b: Block): (r: map<int, Block>)
    ensures r.Keys == m.Keys + {k}
    ensures k in m ==> r[k] == m[k]
    ensures k !in m ==> r[k] == b
    ensures forall j :: j in m && j != k ==> r[j] == m[j]
  {
    if k in m then m else m[k := b]
  }

  /** The constructor: the region starts at `base` (the address the device
      reservation returned), the cursor at its start, the whole region
      remaining, no blocks, the id counter at 0. A size of 2^63 or more would
      not fit the signed 64-bit `remainSize_`. */
  function NewPool(base: nat, poolSize: nat): (p: Pool)
    requires poolSize < TwoTo63
    ensures p.base == base && p.poolSize == poolSize
    ensures p.cursor + p.remain == base + poolSize
    ensures p.remain == poolSize && p.nextId == 0
    ensures p.used == map[] && p.free == map[]
  {
    Pool(base, poolSize, base, poolSize, 0, map[], map[])
  }

  /** `GenerateBlocksId`: the post-increment of the id counter. The value is
      the counter before the call, and the counter afterwards exceeds it. */
  function GenerateBlocksId(p: Pool): (r: (nat, Pool))
    ensures r.0 == p.nextId && r.1.nextId == p.nextId + 1
    ensures r.1 == p.(nextId := r.1.nextId)
  {
    (p.nextId, p.(nextId := p.nextId + 1))
  }

  /** `order` is an iteration order of the table `m`: each key exactly once. */
  predicate IsIterationOrder(order: seq<int>, m: map<int, Block>)
  {
    && (forall k :: k in m ==> k in order)
    && (forall i :: 0 <= i < |order| ==> order[i] in m)
    && (forall i, j :: 0 <= i < j < |order| ==> order[i] != order[j])
  }

  /** No entry among the first `n` visited is a free block of size `need`. */
  ghost predicate NoFitBefore(free: map<int, Block>, order: seq<int>, need: nat, n: nat)
    requires n <= |order|
  {
    forall j :: 0 <= j < n && order[j] in free ==> free[order[j]].size < need
  }

  /** The reuse scan of `AllocateBlock`: the first key in iteration order
      whose free block is at least `need` bytes, if there is one. */
  function FirstFit(free: map<int, Block>, order: seq<int>, need: nat): (r: Option<int>)
    ensures r.Some? ==> r.value in free && free[r.value].size >= need
    ensures r.Some? ==> exists i :: 0 <= i < |order| && order[i] == r.value && NoFitBefore(free, order, need, i)
    ensures r.None? <==> NoFitBefore(free, order, need, |order|)
    decreases |order|
  {
    if |order| == 0 then None
    else if order[0] in free && free[order[0]].size >= need then
      assert NoFitBefore(free, order, need, 0);
      Some(order[0])
    else
      var r := FirstFit(free, order[1..], need);
      assert forall n :: 0 <= n < |order| ==>
        (NoFitBefore(free, order[1..], need, n) <==> NoFitBefore(free, order, need, n + 1));
      if r.Some? then
        ghost var i :| 0 <= i < |order[1..]| && order[1..][i] == r.value && NoFitBefore(free, order[1..], need, i);
        assert order[i + 1] == r.value && NoFitBefore(free, order, need, i + 1);
        r
      else r
  }

  /** Whether some free block is large enough for `need` bytes. */
  ghost predicate SomeFreeFits(p: Pool, need: nat)
  {
    exists k :: k in p.free && p.free[k].size >= need
  }

  /** The capacity check `remainSize_ > alignSize`: the signed remaining size
      is converted to `size_t` before the comparison. */
  predicate CarveAdmitted(remain: int, need: nat)
  {
    AsUnsigned64(remain) > need
  }

  /** `AllocateBlock(size, blockId)`. `blockId` is the out-parameter's value
      before the call; `order` is the iteration order of the free table,
      which `std::unordered_map` leaves unspecified. The branches are
      characterised by `AllocateReuse` and `AllocateCarve` below. */
  function Allocate(p: Pool, size: u32, blockId: int, order: seq<int>): (r: Allocation)
    requires IsIterationOrder(order, p.free)
    ensures r.pool.base == p.base && r.pool.poolSize == p.poolSize
    // the failure path changes nothing and does not write the out-parameter
    ensures r.path.Exhausted? ==> r.pool == p && r.blockId == blockId
  {
    var need := AlignSize(size);
    var fit := FirstFit(p.free, order, need);
    if fit.Some? then
      var k := fit.value;
      var b := p.free[k];
      Allocation(p.(used := Insert(p.used, k, b), free := p.free - {k}), b.id, Reused(k))
    else if CarveAdmitted(p.remain, need) then
      var (counter, q) := GenerateBlocksId(p);
      var id := Int32Of(counter);
      var a := RoundUp64(q.cursor);
      var q1 := q.(remain := q.remain - (a - q.cursor), cursor := a);
      var q2 := q1.(used := Insert(q1.used, id, Block(id, need, a)));
      Allocation(q2.(remain := q2.remain - need, cursor := q2.cursor + need), id, Carved)
    else
      Allocation(p, blockId, Exhausted)
  }

  /** Reuse happens exactly when some free block fits; it takes the first
      fitting block in iteration order and moves it, whole and unchanged, to
      the used table; the cursor, the remaining size and the id counter stay. */
  lemma AllocateReuse(p: Pool, size: u32, blockId: int, order: seq<int>)
    requires IsIterationOrder(order, p.free)
    ensures var r := Allocate(p, size, blockId, order);
      && (r.path.Reused? <==> SomeFreeFits(p, AlignSize(size)))
      && (r.path.Reused? ==>
            var k := r.path.key;
            && k in p.free && p.free[k].size >= AlignSize(size)
            && (exists i :: 0 <= i < |order| && order[i] == k && NoFitBefore(p.free, order, AlignSize(size), i))
            && r.blockId == p.free[k].id
            && r.pool.free == p.free - {k}
            && r.pool.used == Insert(p.used, k, p.free[k])
            && r.pool.cursor == p.cursor && r.pool.remain == p.remain && r.pool.nextId == p.nextId)
  {
    var need := AlignSize(size);
    if FirstFit(p.free, order, need).None? {
      forall k | k in p.free ensures p.free[k].size < need {
        var i :| 0 <= i < |order| && order[i] == k;
      }
    }
  }

  /** A carve happens exactly when no free block fits and the capacity check
      passes. The new block starts at the cursor rounded up to 64, has the
      tracked size, and carries the counter's value as id; the cursor moves
      past it and the remaining size drops by exactly the distance the cursor
      moved; the free table stays. */
  lemma AllocateCarve(p: Pool, size: u32, blockId: int, order: seq<int>)
    requires IsIterationOrder(order, p.free)
    ensures var r := Allocate(p, size, blockId, order);
      && (r.path.Carved? <==> !SomeFreeFits(p, AlignSize(size)) && CarveAdmitted(p.remain, AlignSize(size)))
      && (r.path.Carved? ==>
            var a := r.pool.cursor - AlignSize(size);
            && a == RoundUp64(p.cursor) && a % 64 == 0 && p.cursor <= a < p.cursor + 64
            && r.blockId == Int32Of(p.nextId) && r.pool.nextId == p.nextId + 1
            && r.pool.used == Insert(p.used, r.blockId, Block(r.blockId, AlignSize(size), a))
            && r.pool.free == p.free
            && p.remain - r.pool.remain == r.pool.cursor - p.cursor)
  {
    AllocateReuse(p, size, blockId, order);
  }

  /** `FreeBlock(blockId)`: a negative id is skipped; a used block moves to
      the free table unchanged; any other id (double or unknown free) is only
      logged. The remaining size is never given back. */
  function Free(p: Pool, blockId: int): (q: Pool)
    ensures q.base == p.base && q.poolSize == p.poolSize && q.cursor == p.cursor
    ensures q.remain == p.remain && q.nextId == p.nextId
    ensures blockId < 0 || blockId !in p.used ==> q == p
    ensures 0 <= blockId && blockId in p.used ==>
      && q.used == p.used - {blockId}
      && q.free == Insert(p.free, blockId, p.used[blockId])
  {
    if blockId < 0 then p
    else if blockId in p.used then
      p.(free := Insert(p.free, blockId, p.used[blockId]), used := p.used - {blockId})
    else p
  }

  /** `GetBlockPtr(blockId, addr)`: `addr` is the out-parameter's value
      before the call and the result its value after. Only a block in the used
      table yields its address; a negative, freed or unknown id leaves `addr`
      as it was. The pool is not changed. */
  function GetBlockPtr(p: Pool, blockId: int, addr: nat): (a: nat)
    ensures 0 <= blockId && blockId in p.used ==> a == p.used[blockId].address
    ensures blockId < 0 || blockId !in p.used ==> a == addr
  {
    if blockId < 0 then addr
    else if blockId in p.used then p.used[blockId].address
    else addr
  }
}

=== FILE: optional.dfy ===
/** An optional value: a lookup that finds nothing, or a step after which the
    process does not continue. */
module Optional {

  datatype Option<+T> = None | Some(value: T)
}

=== FILE: pool_hazards.dfy ===
/** Behaviour of `AllocateBlock` at the edges, stated as the code has it.
    The capacity check compares the remaining size with the tracked size
    before the 64-byte padding is taken off, so a carve can leave the
    remaining size negative and end past the region; once negative, the
    conversion to `size_t` admits every later carve. With a 64-byte aligned
    base and a pool size that is a multiple of 32 this does not happen while
    fewer than 2^31 blocks have been carved. */
module PoolHazards {
  import opened CppInt
  import opened MemoryPool
  import opened PoolInvariant

  /** A carve whose remaining size also covers the padding stays inside the
      region, whatever the value of the id counter. */
  lemma CarveWithRoomStaysInBounds(p: Pool, size: u32, blockId: int, order: seq<int>)
    requires Inv(p) && IsIterationOrder(order, p.free)
    requires p.remain >= AlignSize(size) + (RoundUp64(p.cursor) - p.cursor)
    ensures Allocate(p, size, blockId, order).pool.remain >= 0
    ensures InBounds(Allocate(p, size, blockId, order).pool)
  {
    var r := Allocate(p, size, blockId, order);
    InvInBounds(p);
    AllocateReuse(p, size, blockId, order);
    AllocateCarve(p, size, blockId, order);
    if r.path.Reused? {
      assert Live(r.pool) == Live(p);
    }
  }

  /** The first request of 0 bytes on a 72-byte pool at address 0 is carved
      at `[0, 32)`, leaving 40 bytes. */
  lemma OverrunFirstCarve()
    ensures var a1 := Allocate(NewPool(0, 72), 0, -1, []);
      && a1.path.Carved? && a1.blockId == 0
      && a1.pool == Pool(0, 72, 32, 40, 1, map[0 := Block(0, 32, 0)], map[])
  {
    var p0 := NewPool(0, 72);
    assert AlignSize(0) == 32;
    assert FirstFit(p0.free, [], 32).None?;
    assert CarveAdmitted(72, 32);
    var a1 := Allocate(p0, 0, -1, []);
    assert a1.path.Carved?;
    assert Int32Of(0) == 0;
    assert RoundUp64(0) == 0;
  }

  /** The second request of 0 bytes passes the check (40 > 32), is padded
      from 32 to 64 and is carved at `[64, 96)`, leaving -24 bytes. */
  lemma OverrunSecondCarve()
    ensures var a2 := Allocate(Pool(0, 72, 32, 40, 1, map[0 := Block(0, 32, 0)], map[]), 0, -1, []);
      && a2.path.Carved? && a2.blockId == 1
      && a2.pool == Pool(0, 72, 96, -24, 2, map[0 := Block(0, 32, 0), 1 := Block(1, 32, 64)], map[])
  {
    var p1 := Pool(0, 72, 32, 40, 1, map[0 := Block(0, 32, 0)], map[]);
    assert AlignSize(0) == 32;
    assert FirstFit(p1.free, [], 32).None?;
    assert CarveAdmitted(40, 32);
    var a2 := Allocate(p1, 0, -1, []);
    assert a2.path.Carved?;
    assert Int32Of(1) == 1;
    assert RoundUp64(32) == 64;
  }

  /** Two requests of 0 bytes on a 72-byte pool at address 0 leave the
      remaining size at -24 and the second block 24 bytes past the end of the
      region. */
  lemma OverrunExample()
    ensures var p0 := NewPool(0, 72);
      var a1 := Allocate(p0, 0, -1, []);
      var a2 := Allocate(a1.pool, 0, -1, []);
      && a1.path.Carved? && a2.path.Carved?
      && a2.pool.remain < 0
      && a2.pool.used[a2.blockId].address + a2.pool.used[a2.blockId].size > a2.pool.base + a2.pool.poolSize
  {
    OverrunFirstCarve();
    OverrunSecondCarve();
  }

  /** The pool the two carves reach is consistent, and its second block ends
      past the region. */
  lemma OverrunPoolState()
    ensures var q := Pool(0, 72, 96, -24, 2, map[0 := Block(0, 32, 0), 1 := Block(1, 32, 64)], map[]);
      Inv(q) && !InBounds(q)
  {
    var q := Pool(0, 72, 96, -24, 2, map[0 := Block(0, 32, 0), 1 := Block(1, 32, 64)], map[]);
    assert Live(q) == q.used;
    assert Live(q).Keys == {0, 1};
    forall i, j | i in Live(q) && j in Live(q) && i != j ensures Apart(Live(q)[i], Live(q)[j]) {
      assert i == 0 || i == 1;
    }
    assert 1 in Live(q) && Live(q)[1].address + Live(q)[1].size > 72;
  }

  /** The pool after the two carves satisfies the invariant, yet its blocks
      are not all inside the region: the invariant alone does not give
      bounds, the remaining size must also be non-negative. */
  lemma OverrunKeepsInvButNotBounds()
    ensures var a1 := Allocate(NewPool(0, 72), 0, -1, []);
      var a2 := Allocate(a1.pool, 0, -1, []);
      Inv(a2.pool) && !InBounds(a2.pool)
  {
    OverrunFirstCarve();
    OverrunSecondCarve();
    OverrunPoolState();
  }

  /** Once the remaining size is negative (and still within `int64_t`), the
      check `remainSize_ > alignSize` passes for every request: the signed
      value is read as an unsigned one of at least 2^63. */
  lemma NegativeRemainAdmitsEveryCarve(remain: int, size: u32)
    requires -TwoTo63 <= remain < 0
    ensures CarveAdmitted(remain, AlignSize(size))
  {
  }

  /** A pool whose base is 64-byte aligned and whose size is a multiple of 32,
      and whose cursor has only moved by multiples of 32. */
  ghost predicate AlignedInv(p: Pool)
  {
    && Inv(p)
    && p.base % 64 == 0
    && p.poolSize % 32 == 0
    && (p.cursor - p.base) % 32 == 0
    && p.remain >= 0
  }

  /** In an aligned pool the padding is 0 or 32 bytes and the remaining size
      is a multiple of 32, so the strict check leaves room for the padding:
      every allocation keeps the pool aligned and its blocks inside the region. */
  lemma AlignedAllocateStaysInBounds(p: Pool, size: u32, blockId: int, order: seq<int>)
    requires AlignedInv(p) && IsIterationOrder(order, p.free) && p.nextId < MaxIssuedIds
    ensures AlignedInv(Allocate(p, size, blockId, order).pool)
    ensures InBounds(Allocate(p, size, blockId, order).pool)
  {
    var r := Allocate(p, size, blockId, order);
    AllocateKeepsInv(p, size, blockId, order);
    if r.path.Carved? {
      AlignedCarveKeepsRoom(p, size, blockId, order);
    }
    InvInBounds(r.pool);
  }

  /** The carve case: the remaining size stays non-negative and the cursor
      stays a multiple of 32 away from the base. */
  lemma AlignedCarveKeepsRoom(p: Pool, size: u32, blockId: int, order: seq<int>)
    requires IsIterationOrder(order, p.free)
    requires p.base % 64 == 0 && p.poolSize % 32 == 0 && p.poolSize < TwoTo63
    requires p.base <= p.cursor && (p.cursor - p.base) % 32 == 0
    requires p.cursor + p.remain == p.base + p.poolSize && p.remain >= 0
    requires Allocate(p, size, blockId, order).path.Carved?
    ensures Allocate(p, size, blockId, order).pool.remain >= 0
    ensures (Allocate(p, size, blockId, order).pool.cursor - p.base) % 32 == 0
  {
    var need := AlignSize(size);
    var r := Allocate(p, size, blockId, order);
    var a := r.pool.cursor - need;
    assert a == RoundUp64(p.cursor);
    assert r.pool.remain == p.remain - (a - p.cursor) - need;
    assert AsUnsigned64(p.remain) == p.remain;
    assert p.remain > need;
    assert p.remain % 32 == 0;
    PaddingFits(p.base, p.cursor, p.remain, need);
  }

  /** The arithmetic behind the aligned case: from a cursor 32 bytes apart
      from a 64-byte aligned base, the padding to 64 is 0 or 32, and a
      remaining size that is a multiple of 32 and exceeds `need` covers both. */
  lemma PaddingFits(base: nat, c: nat, remain: int, need: nat)
    requires base % 64 == 0 && base <= c && (c - base) % 32 == 0
    requires remain % 32 == 0 && need % 32 == 0 && remain > need
    ensures remain - (RoundUp64(c) - c) - need >= 0
    ensures (RoundUp64(c) + need - base) % 32 == 0
  {
    var a := RoundUp64(c);
    var qb, qc, qa := base / 64, (c - base) / 32, a / 64;
    assert base == 64 * qb && c - base == 32 * qc && a == 64 * qa;
    assert c == 32 * (2 * qb + qc);
    assert a - c == 32 * (2 * qa - 2 * qb - qc);
    assert 0 <= 2 * qa - 2 * qb - qc < 2;
    var qr, qn := remain / 32, need / 32;
    assert remain == 32 * qr && need == 32 * qn;
    assert qr > qn;
    assert a + need - base == 32 * (2 * qa - 2 * qb + qn);
  }

  lemma AlignedFreeStaysInBounds(p: Pool, blockId: int)
    requires AlignedInv(p)
    ensures AlignedInv(Free(p, blockId)) && InBounds(Free(p, blockId))
  {
    FreeKeepsInv(p, blockId);
    InvInBounds(Free(p, blockId));
  }

  /** Every run from construction of an aligned pool, of any length, in which
      fewer than 2^31 blocks are carved before the last step, keeps all blocks
      inside the region in every state. */
  lemma {:induction false} AlignedRunStaysInBounds(t: seq<Pool>, base: nat, poolSize: nat)
    requires poolSize < TwoTo63 && base % 64 == 0 && poolSize % 32 == 0
    requires 0 < |t|
    requires t[0] == NewPool(base, poolSize)
    requires forall i :: 0 <= i < |t| - 1 ==> Step(t[i], t[i + 1])
    requires forall i :: 0 <= i < |t| - 1 ==> t[i].nextId < MaxIssuedIds
    ensures forall i :: 0 <= i < |t| ==> AlignedInv(t[i]) && InBounds(t[i]) && t[i].nextId <= i
  {
    if |t| == 1 {
      NewPoolInv(base, poolSize);
    } else {
      var s := t[..|t| - 1];
      AlignedRunStaysInBounds(s, base, poolSize);
      var n := |t| - 1;
      var p, q := t[n - 1], t[n];
      assert AlignedInv(s[n - 1]) && s[n - 1].nextId <= n - 1;
      assert Step(p, q);
      if exists size: u32, blockId: int, order: seq<int> ::
           IsIterationOrder(order, p.free) && q == Allocate(p, size, blockId, order).pool {
        var size: u32, blockId: int, order: seq<int> :|
          IsIterationOrder(order, p.free) && q == Allocate(p, size, blockId, order).pool;
        AlignedAllocateStaysInBounds(p, size, blockId, order);
        AllocateKeepsInv(p, size, blockId, order);
      } else if exists blockId: int :: q == Free(p, blockId) {
        var blockId: int :| q == Free(p, blockId);
        AlignedFreeStaysInBounds(p, blockId);
      } else {
        InvInBounds(p);
      }
      forall i | 0 <= i < n ensures AlignedInv(t[i]) && InBounds(t[i]) && t[i].nextId <= i {
        assert s[i] == t[i];
      }
    }
  }

  /** The pool size used by default and by the program's entry point:
      100 MiB. */
  const DefaultPoolSize: nat := 104857600

  /** A default-sized pool over a 64-byte aligned region never overruns: in
      every state of every run that carves fewer than 2^31 blocks before its
      last step, its blocks stay inside the region and the remaining size stays
      non-negative. */
  lemma DefaultPoolStaysInBounds(t: seq<Pool>, base: nat)
    requires base % 64 == 0 && 0 < |t|
    requires t[0] == NewPool(base, DefaultPoolSize)
    requires forall i :: 0 <= i < |t| - 1 ==> Step(t[i], t[i + 1])
    requires forall i :: 0 <= i < |t| - 1 ==> t[i].nextId < MaxIssuedIds
    ensures forall i :: 0 <= i < |t| ==> InBounds(t[i]) && t[i].remain >= 0
  {
    assert DefaultPoolSize % 32 == 0 && DefaultPoolSize < TwoTo63;
    AlignedRunStaysInBounds(t, base, DefaultPoolSize);
  }

  /** A request above 2^32 - 64 bytes wraps to a tracked size of at most 32
      bytes, so a 32-byte free block is handed out for it: on a fresh pool,
      allocating 0 bytes, freeing the block and then asking for 2^32 - 1
      bytes returns the 32-byte block. */
  lemma WrappedRequestGetsSmallBlock()
    ensures var p0 := NewPool(0, 1024);
      var a1 := Allocate(p0, 0, -1, []);
      var p1 := Free(a1.pool, a1.blockId);
      var a2 := Allocate(p1, 0xFFFF_FFFF, -1, [0]);
      && a2.path == Reused(0) && a2.blockId == 0
      && a2.pool.used[0].size == 32 < 0xFFFF_FFFF
  {
    var p0 := NewPool(0, 1024);
    var a1 := Allocate(p0, 0, -1, []);
    assert AlignSize(0) == 32;
    assert a1.blockId == 0 && a1.pool.used == map[0 := Block(0, 32, 0)];
    var p1 := Free(a1.pool, a1.blockId);
    assert p1.free == map[0 := Block(0, 32, 0)];
    AlignSizeWrapsAboveLimit(0xFFFF_FFFF);
    assert IsIterationOrder([0], p1.free);
    var a2 := Allocate(p1, 0xFFFF_FFFF, -1, [0]);
    assert SomeFreeFits(p1, AlignSize(0xFFFF_FFFF));
  }

  /** The carve made once 2^31 carves have happened (counter 2^31) stores the
      64-bit counter into a 32-bit `int`: the id handed out is negative, and
      `FreeBlock` and `GetBlockPtr` skip negative ids, so that block can never
      be freed or looked up. */
  lemma NegativeIdAfter2To31Carves(p: Pool, size: u32, blockId: int, order: seq<int>, addr: nat)
    requires IsIterationOrder(order, p.free) && p.nextId == TwoTo31
    requires Allocate(p, size, blockId, order).path.Carved?
    ensures var r := Allocate(p, size, blockId, order);
      && r.blockId == -TwoTo31
      && Free(r.pool, r.blockId) == r.pool
      && GetBlockPtr(r.pool, r.blockId, addr) == addr
  {
  }
}

=== FILE: pool_invariant.dfy ===
/** The pool's consistency invariant and the facts that every operation keeps
    it: the used and free tables never share an id, every block lies between
    the base and the cursor, blocks never overlap, ids are never issued twice,
    and the cursor plus the remaining size always reach the end of the
    region. */
module PoolInvariant {
  import opened CppInt
  import opened MemoryPool

  /** Carves issue `Int32Of(nextId)`; below this bound that is `nextId`. */
  const MaxIssuedIds: nat := TwoTo31

  /** Every block the pool knows of, used or free. */
  function Live(p: Pool): map<int, Block>
  {
    p.used + p.free
  }

  /** The address ranges of two blocks do not overlap. */
  predicate Apart(a: Block, b: Block)
  {
    a.address + a.size <= b.address || b.address + b.size <= a.address
  }

  /** A block stored under key `k` carries id `k`, an id already issued, and
      lies between the base and the cursor. */
  predicate WellPlaced(p: Pool, k: int, b: Block)
  {
    && b.id == k
    && 0 <= k < p.nextId
    && p.base <= b.address
    && b.address + b.size <= p.cursor
  }

  ghost predicate Inv(p: Pool)
  {
    && p.poolSize < TwoTo63
    && p.used.Keys !! p.free.Keys
    && p.base <= p.cursor
    && p.cursor + p.remain == p.base + p.poolSize
    && (forall k :: k in Live(p) ==> WellPlaced(p, k, Live(p)[k]))
    && (forall i, j :: i in Live(p) && j in Live(p) && i != j ==> Apart(Live(p)[i], Live(p)[j]))
  }

  /** Every block ends inside the region. */
  ghost predicate InBounds(p: Pool)
  {
    forall k :: k in Live(p) ==> Live(p)[k].address + Live(p)[k].size <= p.base + p.poolSize
  }

  lemma NewPoolInv(base: nat, poolSize: nat)
    requires poolSize < TwoTo63
    ensures Inv(NewPool(base, poolSize)) && InBounds(NewPool(base, poolSize))
  {
  }

  /** While the remaining size is not negative, every block is inside the
      region: the blocks end at or before the cursor. */
  lemma InvInBounds(p: Pool)
    requires Inv(p) && p.remain >= 0
    ensures InBounds(p)
  {
  }

  /** Moving the block under `k` between the tables leaves the set of live
      blocks as it was. */
  lemma MoveKeepsLive(p: Pool, q: Pool, k: int, b: Block)
    requires p.used.Keys !! p.free.Keys
    requires k in p.free && b == p.free[k]
    requires q.used == Insert(p.used, k, b) && q.free == p.free - {k}
    ensures Live(q) == Live(p) && q.used.Keys !! q.free.Keys
  {
    assert Live(q).Keys == Live(p).Keys;
  }

  lemma ReuseKeepsInv(p: Pool, size: u32, blockId: int, order: seq<int>)
    requires Inv(p) && IsIterationOrder(order, p.free)
    requires Allocate(p, size, blockId, order).path.Reused?
    ensures Inv(Allocate(p, size, blockId, order).pool)
  {
    var r := Allocate(p, size, blockId, order);
    var k := r.path.key;
    MoveKeepsLive(p, r.pool, k, p.free[k]);
  }

  lemma CarveKeepsInv(p: Pool, size: u32, blockId: int, order: seq<int>)
    requires Inv(p) && IsIterationOrder(order, p.free) && p.nextId < MaxIssuedIds
    requires Allocate(p, size, blockId, order).path.Carved?
    ensures Inv(Allocate(p, size, blockId, order).pool)
    ensures Live(Allocate(p, size, blockId, order).pool).Keys == Live(p).Keys + {p.nextId}
  {
    var r := Allocate(p, size, blockId, order);
    var q := r.pool;
    var id := p.nextId;
    var need := AlignSize(size);
    var a := q.cursor - need;
    var nb := Block(id, need, a);
    assert r.blockId == id;
    forall k | k in Live(p) ensures k < id {
      assert WellPlaced(p, k, Live(p)[k]);
    }
    assert q.used == p.used[id := nb];
    assert Live(q) == Live(p)[id := nb];
    forall k | k in Live(q) ensures WellPlaced(q, k, Live(q)[k]) {
      if k != id { assert WellPlaced(p, k, Live(p)[k]); }
    }
    forall i, j | i in Live(q) && j in Live(q) && i != j ensures Apart(Live(q)[i], Live(q)[j]) {
      if i == id {
        assert WellPlaced(p, j, Live(p)[j]);
      } else if j == id {
        assert WellPlaced(p, i, Live(p)[i]);
      } else {
        assert Apart(Live(p)[i], Live(p)[j]);
      }
    }
  }

  /** Every block of `p` is still a block of `q`, with the same size and
      address: blocks are never destroyed, moved or resized. */
  ghost predicate Persists(p: Pool, q: Pool)
  {
    forall k :: k in Live(p) ==> k in Live(q) && Live(q)[k] == Live(p)[k]
  }

  /** `AllocateBlock` keeps the invariant (while fewer than 2^31 blocks have
      been carved), never moves the cursor back, never raises the remaining
      size, and a carved block gets an id no block of the pool has ever had. */
  lemma AllocateKeepsInv(p: Pool, size: u32, blockId: int, order: seq<int>)
    requires Inv(p) && IsIterationOrder(order, p.free) && p.nextId < MaxIssuedIds
    ensures var r := Allocate(p, size, blockId, order);
      && Inv(r.pool)
      && p.cursor <= r.pool.cursor && r.pool.remain <= p.remain && p.nextId <= r.pool.nextId <= p.nextId + 1
      && (r.path.Carved? ==> r.blockId == p.nextId && r.blockId !in Live(p) && r.blockId in r.pool.used)
      && (!r.path.Exhausted? ==> r.blockId in r.pool.used && r.blockId !in r.pool.free)
      && Persists(p, r.pool)
  {
    var r := Allocate(p, size, blockId, order);
    match r.path
    case Reused(k) =>
      ReuseKeepsInv(p, size, blockId, order);
      MoveKeepsLive(p, r.pool, k, p.free[k]);
      assert WellPlaced(p, k, Live(p)[k]);
    case Carved =>
      CarveKeepsInv(p, size, blockId, order);
      forall k | k in Live(p) ensures k < p.nextId {
        assert WellPlaced(p, k, Live(p)[k]);
      }
      assert Live(r.pool) == Live(p)[p.nextId := r.pool.used[p.nextId]];
    case Exhausted =>
  }

  /** `FreeBlock` keeps the invariant. */
  lemma FreeKeepsInv(p: Pool, blockId: int)
    requires Inv(p)
    ensures Inv(Free(p, blockId)) && Live(Free(p, blockId)) == Live(p)
  {
    var q := Free(p, blockId);
    if 0 <= blockId && blockId in p.used {
      assert blockId !in p.free;
      assert Live(q).Keys == Live(p).Keys;
      assert Live(q) == Live(p);
    }
  }

  /** A second free of the same id changes nothing. */
  lemma FreeIdempotent(p: Pool, blockId: int)
    ensures Free(Free(p, blockId), blockId) == Free(p, blockId)
  {
    if 0 <= blockId && blockId in p.used {
      assert blockId !in Free(p, blockId).used;
    }
  }

  /** After a successful allocation, by reuse or by carve, looking the
      returned id up yields the block's address; the block lies between the
      base and the cursor and holds at least the tracked size of the request.
      While the remaining size is not negative it also ends inside the region. */
  lemma LookupAfterAllocate(p: Pool, size: u32, blockId: int, order: seq<int>, addr: nat)
    requires Inv(p) && IsIterationOrder(order, p.free) && p.nextId < MaxIssuedIds
    requires !Allocate(p, size, blockId, order).path.Exhausted?
    ensures var r := Allocate(p, size, blockId, order);
      var b := r.pool.used[r.blockId];
      && GetBlockPtr(r.pool, r.blockId, addr) == b.address
      && p.base <= b.address && b.address + b.size <= r.pool.cursor
      && b.size >= AlignSize(size)
      && (r.pool.remain >= 0 ==> b.address + b.size <= p.base + p.poolSize)
  {
    var r := Allocate(p, size, blockId, order);
    AllocateKeepsInv(p, size, blockId, order);
    assert r.blockId in Live(r.pool);
    assert WellPlaced(r.pool, r.blockId, Live(r.pool)[r.blockId]);
  }

  /** After a free, looking the id up finds nothing and leaves `addr` alone. */
  lemma LookupAfterFree(p: Pool, blockId: int, addr: nat)
    ensures GetBlockPtr(Free(p, blockId), blockId, addr) == addr
  {
  }

  /** Reuse over growth: once a block is freed, every request whose tracked
      size it covers is served from the free table, under every iteration
      order, without moving the cursor or the remaining size. When no other
      free block covers the request, it is that very block that comes back,
      under its id and at its address. */
  lemma ReuseAfterFree(p: Pool, id: int, size: u32, blockId: int, order: seq<int>, addr: nat)
    requires Inv(p) && 0 <= id && id in p.used
    requires AlignSize(size) <= p.used[id].size
    requires IsIterationOrder(order, Free(p, id).free)
    ensures var r := Allocate(Free(p, id), size, blockId, order);
      && r.path.Reused?
      && r.pool.cursor == p.cursor && r.pool.remain == p.remain && r.pool.nextId == p.nextId
    ensures (forall k :: k in p.free ==> p.free[k].size < AlignSize(size)) ==>
      var r := Allocate(Free(p, id), size, blockId, order);
      && r.path == Reused(id) && r.blockId == id
      && GetBlockPtr(r.pool, id, addr) == p.used[id].address
  {
    var q := Free(p, id);
    var b := p.used[id];
    assert id !in p.free;
    assert q.free[id] == b;
    assert SomeFreeFits(q, AlignSize(size));
    AllocateReuse(q, size, blockId, order);
    var r := Allocate(q, size, blockId, order);
    if forall k :: k in p.free ==> p.free[k].size < AlignSize(size) {
      forall j | j in q.free && j != id ensures q.free[j].size < AlignSize(size) {
        assert q.free[j] == p.free[j];
      }
      assert r.path.key == id;
      assert WellPlaced(p, id, Live(p)[id]);
      assert id !in q.used;
    }
  }

  /** `unordered_map` leaves the iteration order open, so whichever free block
      fits may be the one reused: for each one there is an order that picks
      it. */
  lemma AnyFitMayBeChosen(p: Pool, size: u32, blockId: int, k: int, rest: seq<int>)
    requires k in p.free && p.free[k].size >= AlignSize(size)
    requires IsIterationOrder([k] + rest, p.free)
    ensures Allocate(p, size, blockId, [k] + rest).path == Reused(k)
    ensures Allocate(p, size, blockId, [k] + rest).blockId == p.free[k].id
  {
    var order := [k] + rest;
    var r := Allocate(p, size, blockId, order);
    assert SomeFreeFits(p, AlignSize(size));
    forall j | 0 < j <= |order| ensures !NoFitBefore(p.free, order, AlignSize(size), j) {
      assert order[0] == k;
    }
    var i :| 0 <= i < |order| && order[i] == r.path.key && NoFitBefore(p.free, order, AlignSize(size), i);
    assert i == 0;
  }

  /** Exhaustion: while the remaining size is not negative, a request whose
      tracked size is at least the whole pool size, and that no free block
      covers, fails; the pool and the out-parameter are left as they were. */
  lemma ExhaustionChangesNothing(p: Pool, size: u32, blockId: int, order: seq<int>)
    requires Inv(p) && IsIterationOrder(order, p.free) && p.remain >= 0
    requires forall k :: k in p.free ==> p.free[k].size < AlignSize(size)
    requires AlignSize(size) >= p.poolSize
    ensures Allocate(p, size, blockId, order) == Allocation(p, blockId, Exhausted)
  {
    AllocateReuse(p, size, blockId, order);
    AllocateCarve(p, size, blockId, order);
    assert AsUnsigned64(p.remain) == p.remain <= p.poolSize;
  }

  /** One transition of a pool: an allocation under some iteration order, a
      free, or a lookup (which leaves the pool as it is). */
  ghost predicate Step(p: Pool, q: Pool)
  {
    || (exists size: u32, blockId: int, order: seq<int> ::
          IsIterationOrder(order, p.free) && q == Allocate(p, size, blockId, order).pool)
    || (exists blockId: int :: q == Free(p, blockId))
    || q == p
  }

  lemma StepKeepsInv(p: Pool, q: Pool)
    requires Inv(p) && Step(p, q) && p.nextId < MaxIssuedIds
    ensures Inv(q) && q.nextId <= p.nextId + 1
    ensures p.cursor <= q.cursor && q.remain <= p.remain
    ensures Persists(p, q)
  {
    if exists size: u32, blockId: int, order: seq<int> ::
         IsIterationOrder(order, p.free) && q == Allocate(p, size, blockId, order).pool {
      var size: u32, blockId: int, order: seq<int> :|
        IsIterationOrder(order, p.free) && q == Allocate(p, size, blockId, order).pool;
      AllocateKeepsInv(p, size, blockId, order);
    } else if exists blockId: int :: q == Free(p, blockId) {
      var blockId: int :| q == Free(p, blockId);
      FreeKeepsInv(p, blockId);
    }
  }

  /** A run of operations from construction, of any length, in which fewer
      than 2^31 blocks are carved before the last step: the invariant holds in
      every state, the cursor never moves back and the remaining size never
      grows, and a block once created keeps its id, size and address in every
      later state. */
  lemma {:induction false} RunKeepsInv(t: seq<Pool>, base: nat, poolSize: nat)
    requires poolSize < TwoTo63 && 0 < |t|
    requires t[0] == NewPool(base, poolSize)
    requires forall i :: 0 <= i < |t| - 1 ==> Step(t[i], t[i + 1])
    requires forall i :: 0 <= i < |t| - 1 ==> t[i].nextId < MaxIssuedIds
    ensures forall i :: 0 <= i < |t| ==> Inv(t[i]) && t[i].nextId <= i
    ensures forall i, j :: 0 <= i <= j < |t| ==> t[i].cursor <= t[j].cursor && t[j].remain <= t[i].remain
    ensures forall i, j :: 0 <= i <= j < |t| ==> Persists(t[i], t[j])
  {
    if |t| == 1 {
      NewPoolInv(base, poolSize);
    } else {
      var s := t[..|t| - 1];
      RunKeepsInv(s, base, poolSize);
      var n := |t| - 1;
      assert Inv(s[n - 1]) && s[n - 1].nextId <= n - 1;
      StepKeepsInv(t[n - 1], t[n]);
      forall i, j | 0 <= i <= j < |t|
        ensures t[i].cursor <= t[j].cursor && t[j].remain <= t[i].remain
        ensures Persists(t[i], t[j])
      {
        if j < n {
          assert s[i] == t[i] && s[j] == t[j];
        } else if i < n {
          assert s[i] == t[i] && s[n - 1] == t[n - 1];
        }
      }
    }
  }
}

=== FILE: pool_scenario.dfy ===
/** A worked run on a 1024-byte pool at address 0: requests of 10 and 40
    bytes are carved as blocks of 64 and 96 bytes; after the first is freed a
    request of 20 bytes gets it back whole; a request of 1000 bytes then
    fails and changes nothing. */
module PoolScenario {
  import opened CppInt
  import opened MemoryPool

  const B0: Block := Block(0, 64, 0)
  const B1: Block := Block(1, 96, 64)
  /** After the first carve. */
  const P1: Pool := Pool(0, 1024, 64, 960, 1, map[0 := B0], map[])
  /** After the second carve, and again after the reuse. */
  const P2: Pool := Pool(0, 1024, 160, 864, 2, map[0 := B0, 1 := B1], map[])
  /** After the first block is freed. */
  const P3: Pool := Pool(0, 1024, 160, 864, 2, map[1 := B1], map[0 := B0])

  lemma CarveTenBytes()
    ensures var a := Allocate(NewPool(0, 1024), 10, -1, []);
      && a.path.Carved? && a.blockId == 0
      && a.pool == P1
  {
    var p := NewPool(0, 1024);
    assert AlignSize(10) == 64;
    assert FirstFit(p.free, [], 64).None?;
    assert CarveAdmitted(1024, 64);
    var a := Allocate(p, 10, -1, []);
    assert a.path.Carved?;
    assert Int32Of(0) == 0 && RoundUp64(0) == 0;
    assert a.blockId == 0 && a.pool.cursor == 64 && a.pool.remain == 960 && a.pool.nextId == 1;
    assert a.pool.used == map[0 := B0];
  }

  lemma CarveFortyBytes()
    ensures var a := Allocate(Pool(0, 1024, 64, 960, 1, map[0 := B0], map[]), 40, -1, []);
      && a.path.Carved? && a.blockId == 1
      && a.pool == Pool(0, 1024, 160, 864, 2, map[0 := B0, 1 := B1], map[])
  {
    var p := Pool(0, 1024, 64, 960, 1, map[0 := B0], map[]);
    assert AlignSize(40) == 96;
    assert FirstFit(p.free, [], 96).None?;
    assert CarveAdmitted(960, 96);
    var a := Allocate(p, 40, -1, []);
    assert a.path.Carved?;
    assert Int32Of(1) == 1 && RoundUp64(64) == 64;
    assert a.blockId == 1 && a.pool.cursor == 160 && a.pool.remain == 864 && a.pool.nextId == 2;
    assert a.pool.used == map[0 := B0, 1 := B1];
  }

  lemma FreeFirst()
    ensures Free(P2, 0) == P3
  {
    assert map[0 := B0, 1 := B1] - {0} == map[1 := B1];
  }

  lemma ReuseForTwentyBytes()
    ensures var a := Allocate(P3, 20, -1, [0]);
      && a.path == Reused(0) && a.blockId == 0
      && a.pool == P2
  {
    var p := P3;
    assert AlignSize(20) == 64;
    assert IsIterationOrder([0], p.free);
    assert FirstFit(p.free, [0], 64) == Optional.Some(0);
    assert map[1 := B1][0 := B0] == map[0 := B0, 1 := B1];
  }

  lemma ThousandBytesFail()
    ensures var p := P2;
      var a := Allocate(p, 1000, -1, []);
      a.path.Exhausted? && a.pool == p && a.blockId == -1
  {
    var p := P2;
    assert AlignSize(1000) == 1056;
    assert FirstFit(p.free, [], 1056).None?;
    assert !CarveAdmitted(864, 1056);
  }

  /** The whole run, state by state. Freeing the first block and asking for
      20 bytes brings the pool back to exactly the state it had before the
      free: the block is reused with its size and address, and the cursor and
      remaining size do not move. The request of 1000 bytes then fails. */
  lemma Scenario()
    ensures Allocate(NewPool(0, 1024), 10, -1, []) == Allocation(P1, 0, Carved)
    ensures Allocate(P1, 40, -1, []) == Allocation(P2, 1, Carved)
    ensures Free(P2, 0) == P3
    ensures Allocate(P3, 20, -1, [0]) == Allocation(P2, 0, Reused(0))
    ensures Allocate(P2, 1000, -1, []) == Allocation(P2, -1, Exhausted)
  {
    CarveTenBytes();
    CarveFortyBytes();
    FreeFirst();
    ReuseForTwentyBytes();
    ThousandBytesFail();
  }
}
